=== FILE: README.md ===
# Subdomain `add`: a verified model

`subdomain add <domain> <subDomain> <redictURL>` publishes a subdomain through
Apache on a Debian-style host. It validates its three arguments, fills an
Apache virtual-host template with them, makes sure Apache is installed, writes
the file `/etc/apache2/sites-available/<subDomain>.<domain>.conf` and runs
`a2ensite` on it. Any failure ends the process at once. This project models
that command, all of it in `cmd/add.go`, in three modules.

- `Validation` (validation.dfy) models `checkArgs`, `validDomain` and
  `validSubdomain`:
  - `CheckArgs` returns the first error that the Go code's chain of fatal
    exits would report, or `Ok`.
  - The two regular expressions are hand-written predicates, `IsSubdomain`
    and `IsDomain`. They follow the token structure of the patterns, read
    as anchored matches where `$` means end of text.
  - `url.ParseRequestURI` is a parameter, `validURI`.
- `Rendering` (rendering.dfy) models `Template` and `interpolateExpressions`:
  - `ReplaceAll` models Go's `strings.Replace(s, old, new, -1)`: a scan from
    left to right that replaces non-overlapping occurrences and does not
    rescan inserted text within one pass.
  - `Render` is the three passes in source order: `%domain%`, then
    `%redictURL%`, then `%subDomain%`.
  - The main theorems relate the passes to `Fill`, a single-step
    definition: the template read as literal text around holes. For any
    three values, the result is the template with each hole filled by its
    value after the later passes. When the domain and the URL hold no `%`,
    each hole is filled by its value as given.
- `Site` (site.dfy) models the rest of the command:
  - the path that `writeVirtualHostFile` writes and the command line that
    `enableSite` runs;
  - the cobra `Run` function as `Add`, a function from the arguments and the
    host's answers to the list of external effects it causes and the way it
    exits.

A Go string is a byte sequence and `len` counts bytes. Here a `string` stands
for that byte sequence, one `char` per byte. Both patterns accept ASCII only,
so matching byte by byte accepts the same texts as Go's matcher.

Two behaviours of the code are worth noting:

- **Re-expansion.** The code rescans the output of each pass in the next
  pass. So a redirect URL that contains `%subDomain%`, for example in a query
  string, gets the subdomain in its place
  (`Rendering.RenderRescansRedirectURL`). The URL is not kept verbatim.
- **`add ab api http://x`.** This stops at the length check of the first
  argument (`TooShort(0)`), because `len("ab")` is 2. It does not reach the
  domain pattern (`Site.AddShortDomain`).

## Model

| member | source | states |
|---|---|---|
| `Validation.CheckArgs` | cmd/add.go:66-82 | `ArgCount` exactly when there are not 3 arguments. `TooShort(i)` exactly when argument `i` is under 3 bytes and the earlier ones are not. `BadDomain`, `BadSubdomain` and `BadURL` each exactly when every earlier check passed and that check fails. `Ok` exactly when the domain and subdomain patterns match, the URL has 3 or more bytes and `validURI` accepts it. |
| `Validation.IsSubdomain` | cmd/add.go:135-142 | The subdomain pattern as a predicate. It has no contract of its own; `Validation.SubdomainCharacterisation` states its meaning. |
| `Validation.IsDomain` | cmd/add.go:126-133 | The domain pattern as a predicate. It has no contract of its own; `Validation.DomainComposition` and `Validation.SplitDomain` state its meaning. |
| `Validation.SubdomainCharacterisation` | cmd/add.go:135-142 | The subdomain pattern accepts a text exactly when it has 3 to 63 characters, starts and ends with a letter or digit, and has only letters, digits and `-` in between. |
| `Validation.SubdomainCharset` | cmd/add.go:136 | A valid subdomain has no `.`, `%` or `/`, and every character is a letter, a digit or `-`. |
| `Validation.TldCharset` | cmd/add.go:127 | The part after the dot of a domain has no `.`, `%` or `/`. |
| `Validation.SplitDomain` | cmd/add.go:127 | Every valid domain is `label + "." + tld`, with a valid label and a tld of two or more letters. |
| `Validation.DomainComposition` | cmd/add.go:126-133 | `name + "." + tld` is a valid domain if and only if `name` is a valid subdomain and `tld` is two or more ASCII letters. |
| `Validation.DomainHasOneDot` | cmd/add.go:127 | A valid domain contains exactly one `.` and no `%` or `/`. |
| `Validation.DomainDotUnique` | cmd/add.go:127 | Any two dots in a valid domain are at the same index. |
| `Validation.DomainMinLength` | cmd/add.go:70-79 | A valid domain has at least 6 bytes, so the domain pattern implies the first length check. |
| `Validation.ExampleDotComIsDomain` | cmd/add.go:127 | `example.com` is a valid domain. |
| `Validation.ShortLabelIsNotDomain` | cmd/add.go:127 | `ab.com` is refused: its label is two characters long. |
| `Validation.TwoLabelsIsNotDomain` | cmd/add.go:127 | `sub.example.com` is refused: only one label is allowed before the top-level part. |
| `Validation.SubdomainExamples` | cmd/add.go:136 | `api` and `my-app1` are accepted. `a`, `-ab`, `ab-` and `a.b` are refused. |
| `Rendering.Template` | cmd/add.go:34-47 | The virtual-host template, byte for byte. It is a constant with no contract; `Rendering.TemplateLayout` states its hole layout. |
| `Rendering.Render` | cmd/add.go:96-101 | `interpolateExpressions`: the three passes in source order. It has no contract of its own; `Rendering.RenderAsFill` and `Rendering.RenderFillsEveryHole` state what it returns. |
| `Rendering.Placeholder` | cmd/add.go:97-99 | Each placeholder is `%`, then a non-empty word of ASCII letters, then `%`. |
| `Rendering.PlaceholdersDiffer` | cmd/add.go:97-99 | Two different placeholders differ in their second character, so none is a prefix of another. |
| `Rendering.ReplaceAll` | cmd/add.go:97 | A text without the pattern's first character is returned unchanged. |
| `Rendering.ReplaceAllSelf` | cmd/add.go:97 | Replacing a pattern by itself gives back any text unchanged. |
| `Rendering.SkipFree` | cmd/add.go:97 | A prefix free of the pattern's first character is copied, and the scan continues on the rest. |
| `Rendering.MatchAtFront` | cmd/add.go:97 | An occurrence at the front is replaced, and scanning resumes after it, not in the inserted text. |
| `Rendering.PlaceholderReplaced` | cmd/add.go:97-99 | A pass for a placeholder turns that placeholder into the value. |
| `Rendering.OtherPlaceholderUnchanged` | cmd/add.go:97-99 | A pass for one placeholder copies another placeholder unchanged. |
| `Rendering.NoStraddle` | cmd/add.go:97 | If the text after `x` starts with a character the pattern has nowhere after its first position, the pattern is at the front of `x + y` exactly when it is at the front of `x`. |
| `Rendering.SplitPass` | cmd/add.go:97 | Under the same condition, one pass over `x + y` is the pass over `x` followed by the pass over `y`: no match runs across the join. |
| `Rendering.TemplateLayout` | cmd/add.go:34-47 | `Template` equals the hole layout with each hole holding its own placeholder. The layout has 8 holes after `\tServerName `: subdomain, domain, subdomain, domain, URL, URL, subdomain, subdomain. |
| `Rendering.PassOverJoin` | cmd/add.go:97-99 | One placeholder pass over holes and literal text, whatever the holes hold, equals the same layout with each hole's content passed over on its own. The literal text is copied. |
| `Rendering.PassOverFill` | cmd/add.go:97-99 | The same for the whole template layout. |
| `Rendering.DomainPass` | cmd/add.go:97 | The `%domain%` pass over `Template` fills both domain holes with the domain, whatever it holds, and leaves the other placeholders. |
| `Rendering.URLPass` | cmd/add.go:98 | The `%redictURL%` pass fills both URL holes with the URL, rescans the domain holes, and leaves `%subDomain%`. |
| `Rendering.SubDomainPass` | cmd/add.go:99 | The `%subDomain%` pass fills the subdomain holes and rescans what the domain and URL holes hold by then. |
| `Rendering.RenderAsFill` | cmd/add.go:96-101 | For any three values, `interpolateExpressions` returns the template with the subdomain in its holes, the URL after the `%subDomain%` pass in the URL holes, and the domain after the `%redictURL%` and `%subDomain%` passes in the domain holes. |
| `Rendering.RenderFillsEveryHole` | cmd/add.go:96-101 | When the domain and URL hold no `%`, `interpolateExpressions` returns the template with every placeholder replaced by its value. All other characters stay where they were. |
| `Rendering.ExpandPlaceholderInside` | cmd/add.go:99 | In a text `a + %subDomain% + b` with `%`-free `a` and `b`, the pass gives `a + sub + b`. |
| `Rendering.RenderRescansRedirectURL` | cmd/add.go:98-99 | With a `%`-free domain, a URL `a + %subDomain% + b` with `%`-free `a` and `b` is written as `a + sub + b` in both URL holes: inserted text is rescanned by the later pass. |
| `Rendering.NoPlaceholderWithoutPercent` | cmd/add.go:96-101 | A text without `%` contains none of the three placeholders. |
| `Rendering.RenderLeavesNoPlaceholder` | cmd/add.go:96-101 | With `%`-free values, the result contains no `%` and no placeholder. |
| `Rendering.RenderNamesSite` | cmd/add.go:34-47 | With a `%`-free domain and any redirect URL, the result contains `\tServerName` and `\tServerAlias www.` followed by `sub.domain`, and the `ErrorLog` and `CustomLog` paths named `<sub>-error.log` and `<sub>-access.log combined`. |
| `Rendering.RenderedDirectives` | cmd/add.go:34-47 | With a `%`-free domain and URL, the result contains the lines `\tServerName` and `\tServerAlias www.` followed by `sub.domain`, and `\tProxyPass / ` and `\tProxyPassReverse / ` followed by the URL. It also contains the `ErrorLog` and `CustomLog` paths named `<sub>-error.log` and `<sub>-access.log combined`. |
| `Site.ConfigPath` | cmd/add.go:90 | `location` in `writeVirtualHostFile`. It has no contract of its own; `Site.EnableTargetsWrittenFile` states that it is the sites-available directory plus `<sub>.<domain>.conf`. |
| `Site.EnableCommand` | cmd/add.go:104 | The argument vector of the `a2ensite` call. It has no contract of its own; `Site.EnableTargetsWrittenFile` states that it names the written file. |
| `Site.ProbeCommand` | cmd/add.go:116 | The probe command line. It is a constant with no contract; `Site.Add` and `Site.AddInstallsAfterFailedProbe` state where it runs. |
| `Site.InstallCommand` | cmd/add.go:119 | The install command line. It is a constant with no contract; `Site.Add` and `Site.AddInstallsAfterFailedProbe` state when it runs. |
| `Site.BaseName` | cmd/add.go:90 | The last path component: it has no `/`, it is a suffix of the path, and either it is the whole path or a `/` comes right before it. |
| `Site.EnableTargetsWrittenFile` | cmd/add.go:88-107 | For validated values, the file name `<sub>.<domain>.conf` has no `/`. The path written is the sites-available directory plus that name, and `a2ensite` is called on exactly the written file's base name. |
| `Site.SiteFileInjective` | cmd/add.go:90 | Different validated (domain, subdomain) pairs get different files. |
| `Site.Add` | cmd/add.go:53-63 | Each exit happens exactly under its condition. Validation failure: `checkArgs` reports an error, and then no effect has happened. Install failure: the probe and the install both fail, and the effects are just those two commands. Write failure: Apache is available but the write fails, and the write is the last effect. Enable failure: the write succeeds but `a2ensite` fails, and that call is the last effect. Success: every step succeeds. |
| `Site.AddWritesOnlyValidated` | cmd/add.go:54-57 | A run with any external effect at all, and so any run that writes a file or calls `a2ensite`, had valid arguments: a valid domain and a valid subdomain. |
| `Site.AddSuccessEffects` | cmd/add.go:53-58 | A successful run's effects are, in order: the probe; the install if the probe failed; the write of the rendered text to the sites-available file with mode 0644; `a2ensite` on that file. |
| `Site.AddWritesRenderedTemplate` | cmd/add.go:55-57 | The text in the `WriteFile` effect of a successful run names `sub.domain` in `ServerName` and `ServerAlias`, together with both log files, for any URL. When the URL has no `%`, that text is the filled template, has no placeholder left, and proxies to the URL. |
| `Site.AddKeepsFileWhenEnableFails` | cmd/add.go:103-107 | When enabling fails the process exits, and the written file stays: nothing is rolled back. |
| `Site.AddInstallsAfterFailedProbe` | cmd/add.go:115-124 | When the probe fails, the install command runs right after it, before anything is written. |
| `Site.ExampleArgsAccepted` | cmd/add.go:66-82 | `example.com api <url>` passes every check when the URL parses. |
| `Site.AddExampleSite` | cmd/add.go:53-58 | `add example.com api http://localhost:8080` probes, writes `/etc/apache2/sites-available/api.example.com.conf` and runs `sudo a2ensite api.example.com.conf`. |
| `Site.AddShortDomain` | cmd/add.go:70-72 | `add ab api http://x` stops with `TooShort(0)` and has no effect. |

## Left out

- `url.ParseRequestURI` (cmd/add.go:145) is not modelled: the Go standard library is not part of this model. It is the parameter `validURI` of `CheckArgs` and `Host`. No property proved here depends on what it accepts.
- File system, shell and package manager (cmd/add.go:91, 104, 116, 119) are not modelled. `Add` records the effects it asks for (`Exec`, `WriteFile`) and takes their outcomes from `Host`. Why a command failed, and what it printed, is not modelled.
- Messages printed with `fmt.Printf`, the texts of the `log.Fatal` calls and the success banner (cmd/add.go:60-62) are left out. The model keeps only which error ends the run (`Verdict`, `Exit`).
- `checkError` (cmd/add.go:109-113) is the same fatal exit as every other error. Its own formatting of the message is left out.
- `regexp.Compile` failing (cmd/add.go:127-128, 136-137) cannot happen: both patterns are fixed and valid.
- Registration of the command with cobra (cmd/add.go:84-86) and the cobra argument plumbing are left out.
- `Rendering.ReplaceAll` requires a non-empty pattern. Go's empty-pattern behaviour (inserting between runes) is not modelled, because the source always passes one of the three non-empty placeholders.
- `Rendering.RenderFillsEveryHole` requires that the domain and URL hold no `%`. For a validated domain this always holds (`Validation.DomainHasOneDot`). Without that condition the result is still stated, by `Rendering.RenderAsFill`, in terms of the passes over the values themselves. The case of one `%subDomain%` inside a URL is worked out (`Rendering.RenderRescansRedirectURL`).
- `Rendering.RenderedDirectives` states the directive lines as occurrences in the text, not as their exact positions; their positions follow from `Rendering.RenderFillsEveryHole` and `Rendering.Fill`.

=== FILE: rendering.dfy ===
/** Template rendering of the `add` command: the virtual-host template, Go's
    `strings.Replace(s, old, new, -1)`, and `interpolateExpressions`, which runs
    three replace-all passes over the template, one per placeholder. */
module Rendering {

  import Validation

  /** The three values that the template refers to. */
  datatype Field = Domain | RedirectURL | SubDomain

  /** The letters between the two `%` signs of a placeholder. */
  function Word(f: Field): (w: string)
    ensures w != [] && forall i :: 0 <= i < |w| ==> Validation.IsAsciiLetter(w[i])
  {
    match f
    case Domain => "domain"
    case RedirectURL => "redictURL"
    case SubDomain => "subDomain"
  }

  /** `%domain%`, `%redictURL%` and `%subDomain%`: a `%`, a word of letters, a `%`. */
  function Placeholder(f: Field): (p: string)
    ensures |p| >= 3 && p[0] == '%' && Validation.IsAsciiLetter(p[1])
    ensures p[|p| - 1] == '%' && forall i :: 1 <= i < |p| - 1 ==> Validation.IsAsciiLetter(p[i])
  {
    "%" + Word(f) + "%"
  }

  /** Two different placeholders already differ in their second character. */
  lemma PlaceholdersDiffer(f: Field, g: Field)
    requires f != g
    ensures Placeholder(f)[1] != Placeholder(g)[1]
  {
  }

  /** The package-level `Template`: an Apache virtual host that proxies to the
      redirect URL.  Every tab and space is part of the value. */
  const Template: string :=
    "<VirtualHost *:80> \n" +
    "\tServerName %subDomain%.%domain% \n" +
    "\tServerAlias www.%subDomain%.%domain% \n\n" +
    "\t<Proxy *> \n" +
    "\t\tOrder allow,deny \n" +
    "\t\tAllow from all \n" +
    "\t</Proxy> \n" +
    "\tProxyPass / %redictURL% \n" +
    "\tProxyPassReverse / %redictURL% \n\n" +
    "\tErrorLog ${APACHE_LOG_DIR}/%subDomain%-error.log \n" +
    "\tCustomLog ${APACHE_LOG_DIR}/%subDomain%-access.log combined \n" +
    "</VirtualHost>"

  /** `strings.Replace(s, pat, rep, -1)` for a non-empty `pat`: scan left to right,
      replace each non-overlapping occurrence of `pat` by `rep`, and go on after
      the occurrence, so the inserted `rep` is not scanned again in this pass.
      A text in which the first character of `pat` never appears comes back
      unchanged. */
  function ReplaceAll(s: string, pat: string, rep: string): (r: string)
    requires pat != []
    ensures pat[0] !in s ==> r == s
    decreases |s|
  {
    if pat <= s then rep + ReplaceAll(s[|pat|..], pat, rep)
    else if s == [] then []
    else [s[0]] + ReplaceAll(s[1..], pat, rep)
  }

  /** Replacing a pattern by itself gives back the text, whatever the text. */
  lemma {:induction false} ReplaceAllSelf(s: string, pat: string)
    requires pat != []
    ensures ReplaceAll(s, pat, pat) == s
    decreases |s|
  {
    if pat <= s {
      ReplaceAllSelf(s[|pat|..], pat);
      assert s == pat + s[|pat|..];
    } else if s != [] {
      ReplaceAllSelf(s[1..], pat);
      assert s == [s[0]] + s[1..];
    }
  }

  /** `interpolateExpressions(domain, subDomain, redictURL)`: replace every
      `%domain%`, then every `%redictURL%`, then every `%subDomain%`.  Each pass
      scans the whole output of the previous one. */
  function Render(domain: string, subDomain: string, redirectURL: string): string {
    var afterDomain := ReplaceAll(Template, Placeholder(Domain), domain);
    var afterURL := ReplaceAll(afterDomain, Placeholder(RedirectURL), redirectURL);
    ReplaceAll(afterURL, Placeholder(SubDomain), subDomain)
  }

  // ----- The template as literal text around holes -----

  /** A hole for one value, followed by literal text up to the next hole. */
  datatype Segment = Segment(field: Field, text: string)

  /** What goes into each hole: a value, or (before its pass) the placeholder itself. */
  datatype Values = Values(domain: string, redirectURL: string, subDomain: string) {
    function Get(f: Field): string {
      match f
      case Domain => domain
      case RedirectURL => redirectURL
      case SubDomain => subDomain
    }
  }

  /** The literal text before the first hole. */
  const Lead: string := "<VirtualHost *:80> \n" + "\tServerName "

  /** The holes of `Template` in order, each with the literal text after it,
      split where the lines of `Template` are split. */
  const Segments: seq<Segment> := [
    Segment(SubDomain, "."),
    Segment(Domain, " \n" + "\tServerAlias www."),
    Segment(SubDomain, "."),
    Segment(Domain, " \n\n" + "\t<Proxy *> \n" + "\t\tOrder allow,deny \n" + "\t\tAllow from all \n" +
                    "\t</Proxy> \n" + "\tProxyPass / "),
    Segment(RedirectURL, " \n" + "\tProxyPassReverse / "),
    Segment(RedirectURL, " \n\n" + "\tErrorLog ${APACHE_LOG_DIR}/"),
    Segment(SubDomain, "-error.log \n" + "\tCustomLog ${APACHE_LOG_DIR}/"),
    Segment(SubDomain, "-access.log combined \n" + "</VirtualHost>")
  ]

  function Join(segs: seq<Segment>, vals: Values): string {
    if segs == [] then [] else vals.Get(segs[0].field) + segs[0].text + Join(segs[1..], vals)
  }

  lemma JoinStep(segs: seq<Segment>, k: nat, vals: Values)
    requires k < |segs|
    ensures Join(segs[k..], vals) == vals.Get(segs[k].field) + segs[k].text + Join(segs[k + 1..], vals)
  {
    assert segs[k..][1..] == segs[k + 1..];
  }

  /** The template with the hole for each field filled by `vals.Get(field)`,
      all holes at once. */
  function Fill(vals: Values): string {
    Lead + Join(Segments, vals)
  }

  const Placeholders: Values :=
    Values(Placeholder(Domain), Placeholder(RedirectURL), Placeholder(SubDomain))

  // ----- `Template` as the layout: each line of the template split at its holes -----

  lemma Line2Split()
    ensures "\tServerName %subDomain%.%domain% \n"
         == "\tServerName " + Placeholder(SubDomain) + "." + Placeholder(Domain) + " \n"
  {
    assert Placeholder(SubDomain) == "%subDomain%" && Placeholder(Domain) == "%domain%";
  }

  lemma Line3Split()
    ensures "\tServerAlias www.%subDomain%.%domain% \n\n"
         == "\tServerAlias www." + Placeholder(SubDomain) + "." + Placeholder(Domain) + " \n\n"
  {
    assert Placeholder(SubDomain) == "%subDomain%" && Placeholder(Domain) == "%domain%";
  }

  lemma Line8Split()
    ensures "\tProxyPass / %redictURL% \n" == "\tProxyPass / " + Placeholder(RedirectURL) + " \n"
  {
    assert Placeholder(RedirectURL) == "%redictURL%";
  }

  lemma Line9Split()
    ensures "\tProxyPassReverse / %redictURL% \n\n"
         == "\tProxyPassReverse / " + Placeholder(RedirectURL) + " \n\n"
  {
    assert Placeholder(RedirectURL) == "%redictURL%";
  }

  lemma Line10Split()
    ensures "\tErrorLog ${APACHE_LOG_DIR}/%subDomain%-error.log \n"
         == "\tErrorLog ${APACHE_LOG_DIR}/" + Placeholder(SubDomain) + "-error.log \n"
  {
    assert Placeholder(SubDomain) == "%subDomain%";
  }

  lemma Line11Split()
    ensures "\tCustomLog ${APACHE_LOG_DIR}/%subDomain%-access.log combined \n"
         == "\tCustomLog ${APACHE_LOG_DIR}/" + Placeholder(SubDomain) + "-access.log combined \n"
  {
    assert Placeholder(SubDomain) == "%subDomain%";
  }

  /** Regrouping the pieces of one hole and the literal text around it. */
  lemma RegroupHole(pre: string, hole: string, post: string, next: string, t: string)
    ensures pre + (hole + (post + next) + t) == (pre + hole + post) + (next + t)
  {
  }

  lemma RegroupFirstLines(first: string, pre: string, h1: string, mid: string, h2: string, post: string,
                          next: string, t: string)
    ensures (first + pre) + (h1 + mid + (h2 + (post + next) + t))
         == first + ((pre + h1 + mid + h2 + post) + (next + t))
  {
  }

  lemma RegroupProxyBlock(pre: string, h1: string, mid: string, h2: string, post: string,
                          l4: string, l5: string, l6: string, l7: string, next: string, t: string)
    ensures pre + (h1 + mid + (h2 + (post + l4 + l5 + l6 + l7 + next) + t))
         == (pre + h1 + mid + h2 + post) + (l4 + l5 + l6 + l7 + (next + t))
  {
  }

  lemma RegroupFour(a: string, b: string, c: string, d: string, t: string)
    ensures a + (b + (c + (d + t))) == a + b + c + d + t
  {
  }

  /** The lines of `Template`, as its source writes them.  This second copy of
      the template exists only so that `TemplateLayout` can be proved line by
      line. */
  const TemplateLines: seq<string> := [
    "<VirtualHost *:80> \n",
    "\tServerName %subDomain%.%domain% \n",
    "\tServerAlias www.%subDomain%.%domain% \n\n",
    "\t<Proxy *> \n",
    "\t\tOrder allow,deny \n",
    "\t\tAllow from all \n",
    "\t</Proxy> \n",
    "\tProxyPass / %redictURL% \n",
    "\tProxyPassReverse / %redictURL% \n\n",
    "\tErrorLog ${APACHE_LOG_DIR}/%subDomain%-error.log \n",
    "\tCustomLog ${APACHE_LOG_DIR}/%subDomain%-access.log combined \n",
    "</VirtualHost>"
  ]

  function Concat(ls: seq<string>): string {
    if ls == [] then [] else ls[0] + Concat(ls[1..])
  }

  lemma ConcatStep(ls: seq<string>, i: nat)
    requires i < |ls|
    ensures Concat(ls[i..]) == ls[i] + Concat(ls[i + 1..])
  {
    assert ls[i..][1..] == ls[i + 1..];
  }

  lemma RegroupLines(l1: string, l2: string, l3: string, l4: string, l5: string, l6: string,
                     l7: string, l8: string, l9: string, l10: string, l11: string, l12: string)
    ensures l1 + l2 + l3 + l4 + l5 + l6 + l7 + l8 + l9 + l10 + l11 + l12 ==
            l1 + (l2 + (l3 + (l4 + (l5 + (l6 + (l7 + (l8 + (l9 + (l10 + (l11 + (l12 + [])))))))))))
  {
  }

  lemma LastLines()
    ensures var ls := TemplateLines;
      Concat(ls[6..]) == ls[6] + (ls[7] + (ls[8] + (ls[9] + (ls[10] + (ls[11] + [])))))
  {
    var ls := TemplateLines;
    assert ls[12..] == [];
    ConcatStep(ls, 11); ConcatStep(ls, 10); ConcatStep(ls, 9);
    ConcatStep(ls, 8); ConcatStep(ls, 7); ConcatStep(ls, 6);
  }

  lemma TemplateIsLines()
    ensures Template == Concat(TemplateLines)
  {
    var ls := TemplateLines;
    LastLines();
    ConcatStep(ls, 5); ConcatStep(ls, 4); ConcatStep(ls, 3);
    ConcatStep(ls, 2); ConcatStep(ls, 1); ConcatStep(ls, 0);
    assert ls[0..] == ls;
    RegroupLines(ls[0], ls[1], ls[2], ls[3], ls[4], ls[5], ls[6], ls[7], ls[8], ls[9], ls[10], ls[11]);
  }

  lemma LayoutFromLine11()
    ensures "\tCustomLog ${APACHE_LOG_DIR}/" + Join(Segments[7..], Placeholders) == Concat(TemplateLines[10..])
  {
    var ls := TemplateLines;
    assert Segments[8..] == [] && ls[12..] == [];
    JoinStep(Segments, 7, Placeholders);
    ConcatStep(ls, 10);
    ConcatStep(ls, 11);
    Line11Split();
    RegroupHole("\tCustomLog ${APACHE_LOG_DIR}/", Placeholder(SubDomain), "-access.log combined \n",
      "</VirtualHost>", []);
  }

  lemma LayoutFromLine10()
    ensures "\tErrorLog ${APACHE_LOG_DIR}/" + Join(Segments[6..], Placeholders) == Concat(TemplateLines[9..])
  {
    LayoutFromLine11();
    JoinStep(Segments, 6, Placeholders);
    ConcatStep(TemplateLines, 9);
    Line10Split();
    RegroupHole("\tErrorLog ${APACHE_LOG_DIR}/", Placeholder(SubDomain), "-error.log \n",
      "\tCustomLog ${APACHE_LOG_DIR}/", Join(Segments[7..], Placeholders));
  }

  lemma LayoutFromLine9()
    ensures "\tProxyPassReverse / " + Join(Segments[5..], Placeholders) == Concat(TemplateLines[8..])
  {
    LayoutFromLine10();
    JoinStep(Segments, 5, Placeholders);
    ConcatStep(TemplateLines, 8);
    Line9Split();
    RegroupHole("\tProxyPassReverse / ", Placeholder(RedirectURL), " \n\n",
      "\tErrorLog ${APACHE_LOG_DIR}/", Join(Segments[6..], Placeholders));
  }

  lemma LayoutFromLine8()
    ensures "\tProxyPass / " + Join(Segments[4..], Placeholders) == Concat(TemplateLines[7..])
  {
    LayoutFromLine9();
    JoinStep(Segments, 4, Placeholders);
    ConcatStep(TemplateLines, 7);
    Line8Split();
    RegroupHole("\tProxyPass / ", Placeholder(RedirectURL), " \n",
      "\tProxyPassReverse / ", Join(Segments[5..], Placeholders));
  }

  /** The four lines of the `<Proxy *>` block. */
  lemma ProxyBlockLines()
    ensures Concat(TemplateLines[3..])
         == "\t<Proxy *> \n" + "\t\tOrder allow,deny \n" + "\t\tAllow from all \n" + "\t</Proxy> \n"
            + Concat(TemplateLines[7..])
  {
    var ls := TemplateLines;
    ConcatStep(ls, 6); ConcatStep(ls, 5); ConcatStep(ls, 4); ConcatStep(ls, 3);
    RegroupFour(ls[3], ls[4], ls[5], ls[6], Concat(ls[7..]));
  }

  lemma LayoutFromLine3()
    ensures "\tServerAlias www." + Join(Segments[2..], Placeholders) == Concat(TemplateLines[2..])
  {
    LayoutFromLine8();
    ProxyBlockLines();
    JoinStep(Segments, 3, Placeholders);
    JoinStep(Segments, 2, Placeholders);
    ConcatStep(TemplateLines, 2);
    Line3Split();
    RegroupProxyBlock("\tServerAlias www.", Placeholder(SubDomain), ".", Placeholder(Domain), " \n\n",
      "\t<Proxy *> \n", "\t\tOrder allow,deny \n", "\t\tAllow from all \n", "\t</Proxy> \n",
      "\tProxyPass / ", Join(Segments[4..], Placeholders));
  }

  /** `Template` is the layout with every hole holding its own placeholder. */
  lemma TemplateLayout()
    ensures Template == Fill(Placeholders)
  {
    TemplateIsLines();
    LayoutFromLine3();
    JoinStep(Segments, 1, Placeholders);
    JoinStep(Segments, 0, Placeholders);
    assert Segments[0..] == Segments;
    ConcatStep(TemplateLines, 1);
    ConcatStep(TemplateLines, 0);
    assert TemplateLines[0..] == TemplateLines;
    Line2Split();
    RegroupFirstLines(TemplateLines[0], "\tServerName ", Placeholder(SubDomain), ".", Placeholder(Domain),
      " \n", "\tServerAlias www.", Join(Segments[2..], Placeholders));
  }

  // ----- One replace-all pass over the layout -----

  /** Literal text that can follow a hole: non-empty, without `%`, and not
      starting with a letter (so it cannot continue a placeholder word). */
  predicate IsLiteral(t: string) {
    t != [] && '%' !in t && !Validation.IsAsciiLetter(t[0])
  }

  /** The values after one replace-all pass over each of them. */
  function Pass(vals: Values, pat: string, v: string): (r: Values)
    requires pat != []
    ensures forall g :: r.Get(g) == ReplaceAll(vals.Get(g), pat, v)
  {
    Values(ReplaceAll(vals.domain, pat, v), ReplaceAll(vals.redirectURL, pat, v),
           ReplaceAll(vals.subDomain, pat, v))
  }

  /** A prefix free of the pattern's first character is copied unchanged. */
  lemma {:induction false} SkipFree(a: string, b: string, pat: string, rep: string)
    requires pat != [] && pat[0] !in a
    ensures ReplaceAll(a + b, pat, rep) == a + ReplaceAll(b, pat, rep)
  {
    if a == [] {
      assert a + b == b;
    } else {
      var s := a + b;
      assert s[0] == a[0] && s[1..] == a[1..] + b;
      assert !(pat <= s) by { assert pat[0] != s[0]; }
      SkipFree(a[1..], b, pat, rep);
      Regroup3([a[0]], a[1..], ReplaceAll(b, pat, rep));
      assert [a[0]] + a[1..] == a;
    }
  }

  lemma Regroup3(a: string, b: string, c: string)
    ensures a + (b + c) == a + b + c
  {
  }

  /** An occurrence at the front is replaced, and the scan resumes after it. */
  lemma MatchAtFront(pat: string, b: string, rep: string)
    requires pat != []
    ensures ReplaceAll(pat + b, pat, rep) == rep + ReplaceAll(b, pat, rep)
  {
    assert (pat + b)[|pat|..] == b;
  }

  /** Without an occurrence at the front, the first character is copied. */
  lemma CopyFront(x: string, pat: string, v: string)
    requires pat != [] && x != []
    requires |pat| >= 2 && |x| >= 2 && pat[1] != x[1]
    ensures ReplaceAll(x, pat, v) == [x[0]] + ReplaceAll(x[1..], pat, v)
  {
    assert !(pat <= x) by {
      assert pat[1] != x[1];
    }
  }

  /** After its first character, a placeholder holds only letters and `%`. */
  lemma PlaceholderTail(f: Field)
    ensures forall j :: 1 <= j < |Placeholder(f)| ==>
      Placeholder(f)[j] == '%' || Validation.IsAsciiLetter(Placeholder(f)[j])
  {
    var w := Word(f);
    forall j | 1 <= j < |Placeholder(f)|
      ensures Placeholder(f)[j] == '%' || Validation.IsAsciiLetter(Placeholder(f)[j])
    {
      if j <= |w| {
        assert Placeholder(f)[j] == w[j - 1];
      }
    }
  }

  /** A match of `pat` cannot run from `x` into `y` when `y` starts with a
      character that `pat` has nowhere after its first position: `pat` is at
      the front of `x + y` exactly when it is at the front of `x`. */
  lemma NoStraddle(x: string, y: string, pat: string)
    requires x != [] && y != []
    requires forall j :: 1 <= j < |pat| ==> pat[j] != y[0]
    ensures pat <= x + y <==> pat <= x
  {
    if pat <= x {
      assert forall i :: 0 <= i < |pat| ==> (x + y)[i] == x[i];
    }
    if |pat| > |x| {
      assert (x + y)[|x|] == y[0];
      assert pat[|x|] != (x + y)[|x|];
    } else if pat <= x + y {
      assert forall i :: 0 <= i < |pat| ==> pat[i] == (x + y)[i] == x[i];
    }
  }

  /** Under the same condition, the pass over `x + y` is the pass over `x`
      followed by the pass over `y`. */
  lemma {:induction false} SplitPass(x: string, y: string, pat: string, v: string)
    requires pat != [] && y != []
    requires forall j :: 1 <= j < |pat| ==> pat[j] != y[0]
    ensures ReplaceAll(x + y, pat, v) == ReplaceAll(x, pat, v) + ReplaceAll(y, pat, v)
    decreases |x|
  {
    if x == [] {
      assert x + y == y;
    } else {
      var s := x + y;
      NoStraddle(x, y, pat);
      if pat <= s {
        assert s[|pat|..] == x[|pat|..] + y;
        SplitPass(x[|pat|..], y, pat, v);
        Regroup3(v, ReplaceAll(x[|pat|..], pat, v), ReplaceAll(y, pat, v));
      } else {
        assert s[0] == x[0] && s[1..] == x[1..] + y;
        SplitPass(x[1..], y, pat, v);
        Regroup3([x[0]], ReplaceAll(x[1..], pat, v), ReplaceAll(y, pat, v));
      }
    }
  }

  /** A placeholder passed over with itself as the pattern becomes the value. */
  lemma PlaceholderReplaced(f: Field, v: string)
    ensures ReplaceAll(Placeholder(f), Placeholder(f), v) == v
  {
    MatchAtFront(Placeholder(f), [], v);
    assert Placeholder(f) + [] == Placeholder(f);
  }

  /** A pass for one placeholder leaves another placeholder as it is. */
  lemma OtherPlaceholderUnchanged(g: Field, f: Field, v: string)
    requires g != f
    ensures ReplaceAll(Placeholder(g), Placeholder(f), v) == Placeholder(g)
  {
    var pat, x, w := Placeholder(f), Placeholder(g), Word(g);
    PlaceholdersDiffer(f, g);
    CopyFront(x, pat, v);
    assert x[1..] == w + "%";
    SkipFree(w, "%", pat, v);
    assert !(pat <= "%");
    assert ReplaceAll("%", pat, v) == "%" + ReplaceAll([], pat, v);
    assert x == "%" + (w + "%");
  }

  /** One pass of `strings.Replace` for a placeholder over holes and literal
      text is the pass over each hole's content on its own: no match runs from
      a hole into the literal text after it, and the literal text is copied. */
  lemma {:induction false} PassOverJoin(segs: seq<Segment>, vals: Values, f: Field, v: string)
    requires forall i :: 0 <= i < |segs| ==> IsLiteral(segs[i].text)
    ensures ReplaceAll(Join(segs, vals), Placeholder(f), v) == Join(segs, Pass(vals, Placeholder(f), v))
  {
    if segs != [] {
      var pat := Placeholder(f);
      var x, t := vals.Get(segs[0].field), segs[0].text;
      var rest := Join(segs[1..], vals);
      assert IsLiteral(t);
      PlaceholderTail(f);
      assert (t + rest)[0] == t[0];
      SplitPass(x, t + rest, pat, v);
      SkipFree(t, rest, pat, v);
      PassOverJoin(segs[1..], vals, f, v);
      Regroup3(x, t, rest);
      Regroup3(ReplaceAll(x, pat, v), t, ReplaceAll(rest, pat, v));
    }
  }

  lemma PiecesAreLiteral(first: string, rest: string)
    requires IsLiteral(first) && '%' !in rest
    ensures IsLiteral(first + rest)
  {
    assert (first + rest)[0] == first[0];
  }

  lemma ServerAliasIsLiteral()
    ensures IsLiteral(Segments[1].text)
  {
    assert '%' !in "\tServerAlias www.";
    PiecesAreLiteral(" \n", "\tServerAlias www.");
  }

  lemma ProxyBlockIsLiteral()
    ensures IsLiteral(Segments[3].text)
  {
    assert '%' !in "\t<Proxy *> \n" && '%' !in "\t\tOrder allow,deny \n";
    assert '%' !in "\t\tAllow from all \n" && '%' !in "\t</Proxy> \n" && '%' !in "\tProxyPass / ";
    PiecesAreLiteral(" \n\n" + "\t<Proxy *> \n" + "\t\tOrder allow,deny \n" + "\t\tAllow from all \n" +
                     "\t</Proxy> \n", "\tProxyPass / ");
  }

  lemma ProxyReverseIsLiteral()
    ensures IsLiteral(Segments[4].text)
  {
    assert '%' !in "\tProxyPassReverse / ";
    PiecesAreLiteral(" \n", "\tProxyPassReverse / ");
  }

  lemma ErrorLogIsLiteral()
    ensures IsLiteral(Segments[5].text)
  {
    assert '%' !in "\tErrorLog ${APACHE_LOG_DIR}/";
    PiecesAreLiteral(" \n\n", "\tErrorLog ${APACHE_LOG_DIR}/");
  }

  lemma CustomLogIsLiteral()
    ensures IsLiteral(Segments[6].text)
  {
    assert '%' !in "-error.log \n" && '%' !in "\tCustomLog ${APACHE_LOG_DIR}/";
    PiecesAreLiteral("-error.log \n", "\tCustomLog ${APACHE_LOG_DIR}/");
  }

  lemma ClosingIsLiteral()
    ensures IsLiteral(Segments[7].text)
  {
    assert '%' !in "-access.log combined \n" && '%' !in "</VirtualHost>";
    PiecesAreLiteral("-access.log combined \n", "</VirtualHost>");
  }

  lemma SegmentsAreLiteral()
    ensures forall i :: 0 <= i < |Segments| ==> IsLiteral(Segments[i].text)
    ensures '%' !in Lead
  {
    assert IsLiteral(Segments[0].text) && IsLiteral(Segments[2].text);
    ServerAliasIsLiteral();
    ProxyBlockIsLiteral();
    ProxyReverseIsLiteral();
    ErrorLogIsLiteral();
    CustomLogIsLiteral();
    ClosingIsLiteral();
    assert '%' !in "<VirtualHost *:80> \n" && '%' !in "\tServerName ";
  }

  lemma PassOverFill(vals: Values, f: Field, v: string)
    ensures ReplaceAll(Fill(vals), Placeholder(f), v) == Fill(Pass(vals, Placeholder(f), v))
  {
    SegmentsAreLiteral();
    SkipFree(Lead, Join(Segments, vals), Placeholder(f), v);
    PassOverJoin(Segments, vals, f, v);
  }

  // ----- What `interpolateExpressions` computes -----

  /** The `%domain%` pass over the template puts the domain in both domain
      holes and leaves the other placeholders. */
  lemma DomainPass(domain: string)
    ensures ReplaceAll(Template, Placeholder(Domain), domain)
         == Fill(Values(domain, Placeholder(RedirectURL), Placeholder(SubDomain)))
  {
    TemplateLayout();
    PassOverFill(Placeholders, Domain, domain);
    PlaceholderReplaced(Domain, domain);
    OtherPlaceholderUnchanged(RedirectURL, Domain, domain);
    OtherPlaceholderUnchanged(SubDomain, Domain, domain);
  }

  /** The `%redictURL%` pass puts the URL in both URL holes, rescans the domain
      holes, and leaves `%subDomain%`. */
  lemma URLPass(domain: string, redirectURL: string)
    ensures ReplaceAll(Fill(Values(domain, Placeholder(RedirectURL), Placeholder(SubDomain))),
                       Placeholder(RedirectURL), redirectURL)
         == Fill(Values(ReplaceAll(domain, Placeholder(RedirectURL), redirectURL), redirectURL,
                        Placeholder(SubDomain)))
  {
    PassOverFill(Values(domain, Placeholder(RedirectURL), Placeholder(SubDomain)), RedirectURL, redirectURL);
    PlaceholderReplaced(RedirectURL, redirectURL);
    OtherPlaceholderUnchanged(SubDomain, RedirectURL, redirectURL);
  }

  /** The `%subDomain%` pass puts the subdomain in the subdomain holes and
      rescans what the domain and URL holes hold by then. */
  lemma SubDomainPass(domain: string, redirectURL: string, subDomain: string)
    ensures ReplaceAll(Fill(Values(domain, redirectURL, Placeholder(SubDomain))),
                       Placeholder(SubDomain), subDomain)
         == Fill(Values(ReplaceAll(domain, Placeholder(SubDomain), subDomain),
                        ReplaceAll(redirectURL, Placeholder(SubDomain), subDomain), subDomain))
  {
    PassOverFill(Values(domain, redirectURL, Placeholder(SubDomain)), SubDomain, subDomain);
    PlaceholderReplaced(SubDomain, subDomain);
  }

  /** What `interpolateExpressions` returns, for any three values: the template
      with the subdomain in the subdomain holes, the URL after the `%subDomain%`
      pass in the URL holes, and the domain after the `%redictURL%` and
      `%subDomain%` passes in the domain holes. */
  lemma RenderAsFill(domain: string, subDomain: string, redirectURL: string)
    ensures Render(domain, subDomain, redirectURL)
         == Fill(Values(
              ReplaceAll(ReplaceAll(domain, Placeholder(RedirectURL), redirectURL), Placeholder(SubDomain), subDomain),
              ReplaceAll(redirectURL, Placeholder(SubDomain), subDomain),
              subDomain))
  {
    DomainPass(domain);
    URLPass(domain, redirectURL);
    SubDomainPass(ReplaceAll(domain, Placeholder(RedirectURL), redirectURL), redirectURL, subDomain);
  }

  /** When the domain and the redirect URL contain no `%`, the three passes
      produce the template with every hole filled at once: each occurrence of
      `%domain%`, `%redictURL%` and `%subDomain%` replaced by its value, and
      every other character of the template where it was. */
  lemma RenderFillsEveryHole(domain: string, subDomain: string, redirectURL: string)
    requires '%' !in domain && '%' !in redirectURL
    ensures Render(domain, subDomain, redirectURL) == Fill(Values(domain, redirectURL, subDomain))
  {
    RenderAsFill(domain, subDomain, redirectURL);
    assert Placeholder(RedirectURL)[0] == '%' && Placeholder(SubDomain)[0] == '%';
  }

  /** A `%subDomain%` between two `%`-free parts is replaced by the subdomain. */
  lemma ExpandPlaceholderInside(before: string, after: string, subDomain: string)
    requires '%' !in before && '%' !in after
    ensures ReplaceAll(before + Placeholder(SubDomain) + after, Placeholder(SubDomain), subDomain)
         == before + subDomain + after
  {
    var ps := Placeholder(SubDomain);
    assert before + ps + after == before + (ps + after);
    SkipFree(before, ps + after, ps, subDomain);
    MatchAtFront(ps, after, subDomain);
    assert ps[0] == '%';
    Regroup3(before, subDomain, after);
  }

  /** The redirect URL is not protected from the later `%subDomain%` pass: a URL
      that holds `%subDomain%` (in a query string, say) ends up holding the
      subdomain there instead. */
  lemma RenderRescansRedirectURL(domain: string, subDomain: string, before: string, after: string)
    requires '%' !in domain && '%' !in before && '%' !in after
    ensures Render(domain, subDomain, before + Placeholder(SubDomain) + after)
         == Fill(Values(domain, before + subDomain + after, subDomain))
  {
    var u := before + Placeholder(SubDomain) + after;
    RenderAsFill(domain, subDomain, u);
    ExpandPlaceholderInside(before, after, subDomain);
    assert Placeholder(RedirectURL)[0] == '%' && Placeholder(SubDomain)[0] == '%';
  }

  // ----- No placeholder left -----

  /** `pat` occurs in `s` starting at index `k`. */
  predicate OccursAt(pat: string, s: string, k: int) {
    0 <= k <= |s| - |pat| && s[k..k + |pat|] == pat
  }

  /** `pat` occurs somewhere in `s`. */
  predicate Occurs(pat: string, s: string) {
    exists k | 0 <= k <= |s| - |pat| :: OccursAt(pat, s, k)
  }

  lemma {:induction false} JoinPercentFree(segs: seq<Segment>, vals: Values)
    requires forall i :: 0 <= i < |segs| ==> IsLiteral(segs[i].text)
    requires forall g :: '%' !in vals.Get(g)
    ensures '%' !in Join(segs, vals)
  {
    if segs != [] {
      assert IsLiteral(segs[0].text);
      JoinPercentFree(segs[1..], vals);
    }
  }

  /** A text without `%` contains none of the placeholders. */
  lemma NoPlaceholderWithoutPercent(r: string)
    requires '%' !in r
    ensures forall f :: !Occurs(Placeholder(f), r)
  {
    forall f, k ensures !OccursAt(Placeholder(f), r, k) {
      var p := Placeholder(f);
      if 0 <= k <= |r| - |p| {
        assert r[k..k + |p|][0] == r[k];
        assert r[k] != '%';
      }
    }
  }

  /** With `%`-free values, the rendered text has no `%` at all, so none of the
      three placeholders is left in it. */
  lemma RenderLeavesNoPlaceholder(domain: string, subDomain: string, redirectURL: string)
    requires '%' !in domain && '%' !in subDomain && '%' !in redirectURL
    ensures '%' !in Render(domain, subDomain, redirectURL)
    ensures forall f :: !Occurs(Placeholder(f), Render(domain, subDomain, redirectURL))
  {
    var vals := Values(domain, redirectURL, subDomain);
    RenderFillsEveryHole(domain, subDomain, redirectURL);
    SegmentsAreLiteral();
    assert forall g :: '%' !in vals.Get(g);
    JoinPercentFree(Segments, vals);
    NoPlaceholderWithoutPercent(Render(domain, subDomain, redirectURL));
  }

  // ----- The directives that the rendered text carries -----

  lemma OccursBetween(a: string, key: string, v: string, b: string)
    ensures Occurs(key + v, a + key + (v + b))
  {
    var s := a + key + (v + b);
    assert s[|a|..|a| + |key + v|] == key + v;
    assert OccursAt(key + v, s, |a|);
  }

  lemma OccursRight(p: string, a: string, b: string)
    requires Occurs(p, b)
    ensures Occurs(p, a + b)
  {
    var k :| 0 <= k <= |b| - |p| && OccursAt(p, b, k);
    assert (a + b)[|a| + k..|a| + k + |p|] == p;
    assert OccursAt(p, a + b, |a| + k);
  }

  /** What occurs in a tail of the holes and literal text occurs in the whole. */
  lemma {:induction false} OccursInJoinTail(segs: seq<Segment>, k: nat, vals: Values, p: string)
    requires k <= |segs| && Occurs(p, Join(segs[k..], vals))
    ensures Occurs(p, Join(segs, vals))
  {
    if k > 0 {
      assert segs[1..][k - 1..] == segs[k..];
      OccursInJoinTail(segs[1..], k - 1, vals, p);
      OccursRight(p, vals.Get(segs[0].field) + segs[0].text, Join(segs[1..], vals));
    } else {
      assert segs[0..] == segs;
    }
  }

  lemma OccursInFill(k: nat, vals: Values, p: string)
    requires k <= |Segments| && Occurs(p, Join(Segments[k..], vals))
    ensures Occurs(p, Fill(vals))
  {
    OccursInJoinTail(Segments, k, vals, p);
    OccursRight(p, Lead, Join(Segments, vals));
  }

  lemma RegroupHoleAfterKey(x: string, pre: string, key: string, v: string, suf: string, post: string, j: string)
    ensures x + (pre + key) + (v + (suf + post) + j) == (x + pre) + key + ((v + suf) + (post + j))
  {
  }

  /** When the text after hole `i` ends with `key` and the text after hole
      `i + 1` starts with `suf`, the filled template carries `key`, the value of
      hole `i + 1`, and `suf`, in a row. */
  lemma KeyBeforeHole(vals: Values, i: nat, pre: string, key: string, suf: string, post: string)
    requires i + 1 < |Segments|
    requires Segments[i].text == pre + key && Segments[i + 1].text == suf + post
    ensures Occurs(key + (vals.Get(Segments[i + 1].field) + suf), Fill(vals))
  {
    var j := Join(Segments[i + 2..], vals);
    var x := vals.Get(Segments[i].field);
    var v := vals.Get(Segments[i + 1].field);
    JoinStep(Segments, i, vals);
    JoinStep(Segments, i + 1, vals);
    RegroupHoleAfterKey(x, pre, key, v, suf, post, j);
    OccursBetween(x + pre, key, v + suf, post + j);
    OccursInFill(i, vals, key + (v + suf));
  }

  lemma RegroupTwoHoles(x: string, pre: string, key: string, v: string, mid: string, w: string, t: string, j: string)
    ensures x + (pre + key) + (v + mid + (w + t + j)) == (x + pre) + key + ((v + mid + w) + (t + j))
  {
  }

  lemma RegroupLead(pre: string, key: string, v: string, mid: string, w: string, t: string, j: string)
    ensures (pre + key) + (v + mid + (w + t + j)) == pre + key + ((v + mid + w) + (t + j))
  {
  }

  lemma FillServerName(vals: Values)
    ensures Occurs("\tServerName " + (vals.subDomain + "." + vals.domain), Fill(vals))
  {
    JoinStep(Segments, 0, vals);
    JoinStep(Segments, 1, vals);
    assert Segments[0..] == Segments;
    var key := "\tServerName ";
    var t1 := Segments[1].text;
    var j2 := Join(Segments[2..], vals);
    RegroupLead("<VirtualHost *:80> \n", key, vals.subDomain, ".", vals.domain, t1, j2);
    OccursBetween("<VirtualHost *:80> \n", key, vals.subDomain + "." + vals.domain, t1 + j2);
  }

  lemma FillServerAlias(vals: Values)
    ensures Occurs("\tServerAlias www." + (vals.subDomain + "." + vals.domain), Fill(vals))
  {
    JoinStep(Segments, 1, vals);
    JoinStep(Segments, 2, vals);
    JoinStep(Segments, 3, vals);
    var key := "\tServerAlias www.";
    var t3 := Segments[3].text;
    var j4 := Join(Segments[4..], vals);
    RegroupTwoHoles(vals.domain, " \n", key, vals.subDomain, ".", vals.domain, t3, j4);
    OccursBetween(vals.domain + " \n", key, vals.subDomain + "." + vals.domain, t3 + j4);
    OccursInFill(1, vals, key + (vals.subDomain + "." + vals.domain));
  }

  lemma FillProxyPass(vals: Values)
    ensures Occurs("\tProxyPass / " + vals.redirectURL, Fill(vals))
  {
    var pre := " \n\n" + "\t<Proxy *> \n" + "\t\tOrder allow,deny \n" + "\t\tAllow from all \n" + "\t</Proxy> \n";
    KeyBeforeHole(vals, 3, pre, "\tProxyPass / ", [], Segments[4].text);
    assert vals.redirectURL + [] == vals.redirectURL;
  }

  lemma FillProxyPassReverse(vals: Values)
    ensures Occurs("\tProxyPassReverse / " + vals.redirectURL, Fill(vals))
  {
    KeyBeforeHole(vals, 4, " \n", "\tProxyPassReverse / ", [], Segments[5].text);
    assert vals.redirectURL + [] == vals.redirectURL;
  }

  lemma FillErrorLog(vals: Values)
    ensures Occurs("\tErrorLog ${APACHE_LOG_DIR}/" + (vals.subDomain + "-error.log \n"), Fill(vals))
  {
    KeyBeforeHole(vals, 5, " \n\n", "\tErrorLog ${APACHE_LOG_DIR}/", "-error.log \n",
                  "\tCustomLog ${APACHE_LOG_DIR}/");
  }

  lemma FillAccessLog(vals: Values)
    ensures Occurs("\tCustomLog ${APACHE_LOG_DIR}/" + (vals.subDomain + "-access.log combined \n"), Fill(vals))
  {
    KeyBeforeHole(vals, 6, "-error.log \n", "\tCustomLog ${APACHE_LOG_DIR}/", "-access.log combined \n",
                  "</VirtualHost>");
  }

  /** With a `%`-free domain and redirect URL, the rendered virtual host names
      `subDomain.domain` as its server name and alias, proxies `/` to the
      redirect URL both ways, and logs to files named after the subdomain; each
      directive sits on a line indented by one tab. */
  /** Whatever the redirect URL holds, a `%`-free domain is enough for the
      result to name the site `<subDomain>.<domain>` and its two log files:
      the domain and subdomain holes keep their values. */
  lemma RenderNamesSite(domain: string, subDomain: string, redirectURL: string)
    requires '%' !in domain
    ensures var r := Render(domain, subDomain, redirectURL);
      && Occurs("\tServerName " + (subDomain + "." + domain), r)
      && Occurs("\tServerAlias www." + (subDomain + "." + domain), r)
      && Occurs("\tErrorLog ${APACHE_LOG_DIR}/" + (subDomain + "-error.log \n"), r)
      && Occurs("\tCustomLog ${APACHE_LOG_DIR}/" + (subDomain + "-access.log combined \n"), r)
  {
    var vals := Values(domain, ReplaceAll(redirectURL, Placeholder(SubDomain), subDomain), subDomain);
    RenderAsFill(domain, subDomain, redirectURL);
    assert Placeholder(RedirectURL)[0] == '%' && Placeholder(SubDomain)[0] == '%';
    assert Render(domain, subDomain, redirectURL) == Fill(vals);
    FillServerName(vals);
    FillServerAlias(vals);
    FillErrorLog(vals);
    FillAccessLog(vals);
  }

  lemma RenderedDirectives(domain: string, subDomain: string, redirectURL: string)
    requires '%' !in domain && '%' !in redirectURL
    ensures var r := Render(domain, subDomain, redirectURL);
      && Occurs("\tServerName " + (subDomain + "." + domain), r)
      && Occurs("\tServerAlias www." + (subDomain + "." + domain), r)
      && Occurs("\tProxyPass / " + redirectURL, r)
      && Occurs("\tProxyPassReverse / " + redirectURL, r)
      && Occurs("\tErrorLog ${APACHE_LOG_DIR}/" + (subDomain + "-error.log \n"), r)
      && Occurs("\tCustomLog ${APACHE_LOG_DIR}/" + (subDomain + "-access.log combined \n"), r)
  {
    var vals := Values(domain, redirectURL, subDomain);
    RenderFillsEveryHole(domain, subDomain, redirectURL);
    FillServerName(vals);
    FillServerAlias(vals);
    FillProxyPass(vals);
    FillProxyPassReverse(vals);
    FillErrorLog(vals);
    FillAccessLog(vals);
  }
}

=== FILE: site.dfy ===
/** Installing the site: the configuration path that `writeVirtualHostFile`
    writes, the `a2ensite` command that `enableSite` runs, and the whole `add`
    run as the sequence of external effects it causes.  The shell, the package
    manager and the file system are not modelled; what they answer is a
    parameter of the run. */
module Site {

  import opened Validation
  import opened Rendering

  const SitesAvailable: string := "/etc/apache2/sites-available/"

  /** Permission bits of the written file, octal 0644. */
  const ConfigMode: nat := 0x1A4

  /** The file name shared by the written file and the enabled site. */
  function SiteFile(domain: string, subDomain: string): string {
    subDomain + "." + domain + ".conf"
  }

  /** `location` in `writeVirtualHostFile`. */
  function ConfigPath(domain: string, subDomain: string): string {
    "/etc/apache2/sites-available/" + subDomain + "." + domain + ".conf"
  }

  /** The argument vector that `enableSite` hands to `exec.Command`. */
  function EnableCommand(domain: string, subDomain: string): seq<string> {
    ["bash", "-c", "sudo a2ensite " + subDomain + "." + domain + ".conf"]
  }

  /** The probe and the installer that `checkApacheInstlled` runs. */
  const ProbeCommand: seq<string> := ["bash", "-c", "service --status-all | grep apache2"]
  const InstallCommand: seq<string> := ["bash", "-c", "apt install apache2 -y"]

  /** The last component of a path: everything after its last `/`. */
  function BaseName(path: string): (name: string)
    ensures '/' !in name
    ensures |name| <= |path| && name == path[|path| - |name|..]
    // the component is as long as it can be: a `/` or the start of the path precedes it
    ensures |name| < |path| ==> path[|path| - |name| - 1] == '/'
  {
    if path == [] then []
    else if path[|path| - 1] == '/' then []
    else BaseName(path[..|path| - 1]) + [path[|path| - 1]]
  }

  lemma {:induction false} BaseNameAfterDirectory(dir: string, name: string)
    requires dir != [] && dir[|dir| - 1] == '/' && '/' !in name
    ensures BaseName(dir + name) == name
  {
    if name == [] {
      assert dir + name == dir;
    } else {
      var path, init, last := dir + name, name[..|name| - 1], name[|name| - 1];
      assert path[|path| - 1] == last && last != '/';
      assert path[..|path| - 1] == dir + init;
      BaseNameAfterDirectory(dir, init);
      assert BaseName(path) == BaseName(dir + init) + [last];
      assert init + [last] == name;
    }
  }

  /** For validated values, the file is written directly inside the
      sites-available directory (the name has no `/`), it is named
      `<subDomain>.<domain>.conf`, and `a2ensite` is asked to enable exactly
      the file that was written. */
  lemma EnableTargetsWrittenFile(domain: string, subDomain: string)
    requires IsDomain(domain) && IsSubdomain(subDomain)
    ensures '/' !in SiteFile(domain, subDomain)
    ensures ConfigPath(domain, subDomain) == SitesAvailable + SiteFile(domain, subDomain)
    ensures BaseName(ConfigPath(domain, subDomain)) == SiteFile(domain, subDomain)
    ensures EnableCommand(domain, subDomain)[2]
         == "sudo a2ensite " + BaseName(ConfigPath(domain, subDomain))
  {
    var name := SiteFile(domain, subDomain);
    DomainHasOneDot(domain);
    SubdomainCharset(subDomain);
    assert '/' !in name;
    assert ConfigPath(domain, subDomain) == SitesAvailable + name;
    BaseNameAfterDirectory(SitesAvailable, name);
    assert EnableCommand(domain, subDomain)[2] == "sudo a2ensite " + name;
  }

  /** Distinct validated (domain, subdomain) pairs get distinct files: the
      subdomain has no dot, so the first dot of the name ends it. */
  lemma SiteFileInjective(d1: string, s1: string, d2: string, s2: string)
    requires IsDomain(d1) && IsSubdomain(s1) && IsDomain(d2) && IsSubdomain(s2)
    requires SiteFile(d1, s1) == SiteFile(d2, s2)
    ensures d1 == d2 && s1 == s2
  {
    var n := SiteFile(d1, s1);
    SubdomainCharset(s1);
    SubdomainCharset(s2);
    FirstDot(s1, d1 + ".conf");
    FirstDot(s2, d2 + ".conf");
    assert n == s1 + "." + (d1 + ".conf") && n == s2 + "." + (d2 + ".conf");
    assert |s1| == |s2|;
    assert s1 == n[..|s1|] == s2;
    assert d1 == n[|s1| + 1..|n| - 5] == d2;
  }

  /** In `s + "." + rest` with a dot-free `s`, the first dot is at `|s|`. */
  lemma FirstDot(s: string, rest: string)
    requires '.' !in s
    ensures (s + "." + rest)[|s|] == '.'
    ensures forall i :: 0 <= i < |s| ==> (s + "." + rest)[i] != '.'
  {
    forall i | 0 <= i < |s| ensures (s + "." + rest)[i] != '.' {
      assert (s + "." + rest)[i] == s[i];
    }
  }

  // ----- The `add` run -----

  /** An external effect: a command run through the shell, or a file written. */
  datatype Effect =
    | Exec(argv: seq<string>)
    | WriteFile(path: string, data: string, mode: nat)

  /** How the process ends: success, or the fatal exit of one step. */
  datatype Exit =
    | Success
    | Invalid(reason: Verdict)
    | InstallFailed
    | WriteFailed
    | EnableFailed

  /** The answers of the outside world: whether `url.ParseRequestURI` accepts a
      text, whether the probe command succeeds, and whether the install, the
      write and the enable step succeed. */
  datatype Host = Host(
    validURI: string -> bool,
    apacheListed: bool,
    installOk: bool,
    writeOk: bool,
    enableOk: bool)

  datatype Run = Run(effects: seq<Effect>, exit: Exit)

  /** The `Run` function of the `add` command: validate, render, make sure
      Apache is installed, write the file, enable the site.  A failed probe is
      read as "not installed", whatever made it fail. */
  function Add(args: seq<string>, host: Host): (run: Run)
    // validation failures happen before any external effect
    ensures run.exit.Invalid? <==> CheckArgs(args, host.validURI) != Ok
    ensures run.exit.Invalid? ==>
      run.effects == [] && run.exit.reason == CheckArgs(args, host.validURI)
    // success needs every step to succeed
    ensures run.exit == Success <==>
      && CheckArgs(args, host.validURI) == Ok
      && (host.apacheListed || host.installOk)
      && host.writeOk && host.enableOk
    // every other failure ends the run at once, after the effect that failed
    ensures run.exit == InstallFailed <==>
      CheckArgs(args, host.validURI) == Ok && !host.apacheListed && !host.installOk
    ensures run.exit == InstallFailed ==>
      run.effects == [Exec(ProbeCommand), Exec(InstallCommand)]
    ensures run.exit == WriteFailed <==>
      CheckArgs(args, host.validURI) == Ok && (host.apacheListed || host.installOk) && !host.writeOk
    ensures run.exit == WriteFailed ==>
      && |args| == 3
      && run.effects == [Exec(ProbeCommand)] + (if host.apacheListed then [] else [Exec(InstallCommand)])
                        + [WriteFile(ConfigPath(args[0], args[1]), Render(args[0], args[1], args[2]), ConfigMode)]
    ensures run.exit == EnableFailed <==>
      && CheckArgs(args, host.validURI) == Ok
      && (host.apacheListed || host.installOk)
      && host.writeOk && !host.enableOk
    ensures run.exit == EnableFailed ==>
      && |args| == 3
      && run.effects == [Exec(ProbeCommand)] + (if host.apacheListed then [] else [Exec(InstallCommand)])
                        + [WriteFile(ConfigPath(args[0], args[1]), Render(args[0], args[1], args[2]), ConfigMode),
                           Exec(EnableCommand(args[0], args[1]))]
  {
    var verdict := CheckArgs(args, host.validURI);
    if verdict != Ok then Run([], Invalid(verdict))
    else
      var domain, subDomain, redirectURL := args[0], args[1], args[2];
      var text := Render(domain, subDomain, redirectURL);
      var ensure := [Exec(ProbeCommand)] + (if host.apacheListed then [] else [Exec(InstallCommand)]);
      if !host.apacheListed && !host.installOk then Run(ensure, InstallFailed)
      else
        var written := ensure + [WriteFile(ConfigPath(domain, subDomain), text, ConfigMode)];
        if !host.writeOk then Run(written, WriteFailed)
        else
          var enabled := written + [Exec(EnableCommand(domain, subDomain))];
          Run(enabled, if host.enableOk then Success else EnableFailed)
  }

  /** Every external effect, and so every file write and every `a2ensite`
      call, comes after a successful validation. */
  lemma AddWritesOnlyValidated(args: seq<string>, host: Host)
    requires Add(args, host).effects != []
    ensures CheckArgs(args, host.validURI) == Ok
    ensures |args| == 3 && IsDomain(args[0]) && IsSubdomain(args[1])
  {
  }

  /** A successful run probes Apache, installs it when the probe failed, writes
      the rendered template to `<subDomain>.<domain>.conf` in the sites-available
      directory with mode 0644, and then enables that same file. */
  lemma AddSuccessEffects(args: seq<string>, host: Host)
    requires Add(args, host).exit == Success
    ensures |args| == 3
    ensures var domain, subDomain, redirectURL := args[0], args[1], args[2];
      var install := if host.apacheListed then [] else [Exec(InstallCommand)];
      Add(args, host).effects ==
        [Exec(ProbeCommand)] + install +
        [WriteFile(SitesAvailable + SiteFile(domain, subDomain), Render(domain, subDomain, redirectURL), ConfigMode),
         Exec(["bash", "-c", "sudo a2ensite " + SiteFile(domain, subDomain)])]
  {
    EnableTargetsWrittenFile(args[0], args[1]);
    assert "sudo a2ensite " + args[1] + "." + args[0] + ".conf" == "sudo a2ensite " + SiteFile(args[0], args[1]);
  }

  /** The text that a successful run writes names the site `<sub>.<domain>`
      and its log files, whatever the redirect URL holds.  When the URL holds
      no `%`, that text is the template with the three values filled in, no
      placeholder is left, and it proxies to the URL. */
  lemma AddWritesRenderedTemplate(args: seq<string>, host: Host)
    requires Add(args, host).exit == Success
    ensures |args| == 3
    ensures var effects := Add(args, host).effects;
      && |effects| >= 2 && effects[|effects| - 2].WriteFile?
      && var text := effects[|effects| - 2].data;
      && Occurs("\tServerName " + (args[1] + "." + args[0]), text)
      && Occurs("\tServerAlias www." + (args[1] + "." + args[0]), text)
      && Occurs("\tErrorLog ${APACHE_LOG_DIR}/" + (args[1] + "-error.log \n"), text)
      && Occurs("\tCustomLog ${APACHE_LOG_DIR}/" + (args[1] + "-access.log combined \n"), text)
      && ('%' !in args[2] ==>
            && text == Fill(Values(args[0], args[2], args[1]))
            && (forall f :: !Occurs(Placeholder(f), text))
            && Occurs("\tProxyPass / " + args[2], text))
  {
    AddSuccessEffects(args, host);
    var text := Render(args[0], args[1], args[2]);
    assert Add(args, host).effects[|Add(args, host).effects| - 2].data == text;
    DomainHasOneDot(args[0]);
    SubdomainCharset(args[1]);
    RenderNamesSite(args[0], args[1], args[2]);
    if '%' !in args[2] {
      RenderFillsEveryHole(args[0], args[1], args[2]);
      RenderLeavesNoPlaceholder(args[0], args[1], args[2]);
      RenderedDirectives(args[0], args[1], args[2]);
    }
  }

  /** There is no rollback: when enabling fails, the file stays written. */
  lemma AddKeepsFileWhenEnableFails(args: seq<string>, host: Host)
    requires CheckArgs(args, host.validURI) == Ok
    requires (host.apacheListed || host.installOk) && host.writeOk && !host.enableOk
    ensures Add(args, host).exit == EnableFailed
    ensures WriteFile(ConfigPath(args[0], args[1]), Render(args[0], args[1], args[2]), ConfigMode)
            in Add(args, host).effects
  {
  }

  /** A failed probe always leads to an install attempt, before anything is
      written. */
  lemma AddInstallsAfterFailedProbe(args: seq<string>, host: Host)
    requires CheckArgs(args, host.validURI) == Ok && !host.apacheListed
    ensures |Add(args, host).effects| >= 2
    ensures Add(args, host).effects[..2] == [Exec(ProbeCommand), Exec(InstallCommand)]
  {
  }

  /** `example.com`, `api` and a URL that `url.ParseRequestURI` accepts pass
      every check. */
  lemma ExampleArgsAccepted(validURI: string -> bool)
    requires validURI("http://localhost:8080")
    ensures CheckArgs(["example.com", "api", "http://localhost:8080"], validURI) == Ok
  {
    ExampleDotComIsDomain();
    SubdomainExamples();
  }

  lemma ExamplePath()
    ensures SitesAvailable + SiteFile("example.com", "api")
         == "/etc/apache2/sites-available/api.example.com.conf"
  {
  }

  lemma ExampleEnable()
    ensures "sudo a2ensite " + SiteFile("example.com", "api") == "sudo a2ensite api.example.com.conf"
  {
  }

  /** `add example.com api http://localhost:8080` on a host where Apache is
      already listed and every step succeeds: a probe, the write of
      `api.example.com.conf`, and `a2ensite` on that file. */
  lemma AddExampleSite(host: Host)
    requires host.validURI("http://localhost:8080")
    requires host.apacheListed && host.writeOk && host.enableOk
    ensures var run := Add(["example.com", "api", "http://localhost:8080"], host);
      && run.exit == Success
      && run.effects == [
           Exec(ProbeCommand),
           WriteFile("/etc/apache2/sites-available/api.example.com.conf",
                     Render("example.com", "api", "http://localhost:8080"), ConfigMode),
           Exec(["bash", "-c", "sudo a2ensite api.example.com.conf"])]
  {
    var args := ["example.com", "api", "http://localhost:8080"];
    ExampleArgsAccepted(host.validURI);
    AddSuccessEffects(args, host);
    ExamplePath();
    ExampleEnable();
  }

  /** `add ab api http://x` stops at the length check of the first argument,
      before the domain pattern is consulted. */
  lemma AddShortDomain(host: Host)
    ensures Add(["ab", "api", "http://x"], host) == Run([], Invalid(TooShort(0)))
  {
  }
}

=== FILE: validation.dfy ===
/** Argument validation of the `add` command: the argument count, the minimum
    lengths, and the two anchored patterns for the domain and the subdomain.

    A Go string is a sequence of bytes and `len` counts bytes; here a `string`
    stands for that byte sequence, one `char` per byte.  Both patterns accept
    only ASCII characters, so matching them byte by byte accepts exactly what
    the Go matcher accepts. */
module Validation {

  /** `[a-zA-Z]` */
  predicate IsAsciiLetter(c: char) {
    'a' <= c <= 'z' || 'A' <= c <= 'Z'
  }

  /** `[a-zA-Z0-9]` */
  predicate IsAlnum(c: char) {
    IsAsciiLetter(c) || '0' <= c <= '9'
  }

  /** `[a-zA-Z0-9-]` */
  predicate IsLabelChar(c: char) {
    IsAlnum(c) || c == '-'
  }

  predicate AllLabelChars(s: string) {
    forall i :: 0 <= i < |s| ==> IsLabelChar(s[i])
  }

  predicate AllLetters(s: string) {
    forall i :: 0 <= i < |s| ==> IsAsciiLetter(s[i])
  }

  /** The language of `^[a-zA-Z0-9][a-zA-Z0-9-]{1,61}[a-zA-Z0-9]$`, read token by
      token: one alphanumeric, a run of 1 to 61 label characters, one alphanumeric.
      Go's `$` without the multi-line flag matches only at the end of the text. */
  predicate IsSubdomain(s: string) {
    && 2 <= |s|
    && IsAlnum(s[0])
    && 1 <= |s[1..|s| - 1]| <= 61
    && AllLabelChars(s[1..|s| - 1])
    && IsAlnum(s[|s| - 1])
  }

  /** The tail `[a-zA-Z]{2,}` of the domain pattern. */
  predicate IsTld(t: string) {
    2 <= |t| && AllLetters(t)
  }

  /** The language of `^<label>\.[a-zA-Z]{2,}$`, where `<label>` is the subdomain
      pattern: some dot splits the text into a label and a top-level part. */
  predicate IsDomain(s: string) {
    exists k :: 0 <= k < |s| && s[k] == '.' && IsSubdomain(s[..k]) && IsTld(s[k + 1..])
  }

  /** Number of occurrences of `c` in `s`. */
  function Count(s: string, c: char): (n: nat)
    ensures n <= |s|
    ensures n == 0 <==> c !in s
  {
    if s == [] then 0 else (if s[0] == c then 1 else 0) + Count(s[1..], c)
  }

  lemma {:induction false} CountAppend(a: string, b: string, c: char)
    ensures Count(a + b, c) == Count(a, c) + Count(b, c)
  {
    if a == [] {
      assert a + b == b;
    } else {
      assert (a + b)[1..] == a[1..] + b;
      CountAppend(a[1..], b, c);
    }
  }

  /** Subdomain characterisation: 3 to 63 characters, alphanumeric at both ends,
      letters, digits or `-` in between. */
  lemma SubdomainCharacterisation(s: string)
    ensures IsSubdomain(s) <==>
      && 3 <= |s| <= 63
      && IsAlnum(s[0]) && IsAlnum(s[|s| - 1])
      && forall i :: 0 < i < |s| - 1 ==> IsLabelChar(s[i])
  {
    if 3 <= |s| {
      var mid := s[1..|s| - 1];
      assert forall i :: 0 <= i < |mid| ==> mid[i] == s[i + 1];
      if forall i :: 0 < i < |s| - 1 ==> IsLabelChar(s[i]) {
        assert forall i :: 0 <= i < |mid| ==> IsLabelChar(mid[i]) by {
          forall i | 0 <= i < |mid| ensures IsLabelChar(mid[i]) {
            assert mid[i] == s[i + 1];
          }
        }
      }
      if AllLabelChars(mid) {
        forall i | 0 < i < |s| - 1 ensures IsLabelChar(s[i]) {
          assert s[i] == mid[i - 1];
        }
      }
    }
  }

  /** A subdomain has no dot, no `%` and no `/`. */
  lemma SubdomainCharset(s: string)
    requires IsSubdomain(s)
    ensures forall i :: 0 <= i < |s| ==> IsLabelChar(s[i])
    ensures '.' !in s && '%' !in s && '/' !in s
  {
    SubdomainCharacterisation(s);
  }

  /** A top-level part has no dot, no `%` and no `/`. */
  lemma TldCharset(t: string)
    requires IsTld(t)
    ensures '.' !in t && '%' !in t && '/' !in t
  {
  }

  /** The split of a domain into its label and its top-level part. */
  function SplitDomain(s: string): (parts: (string, string))
    requires IsDomain(s)
    ensures s == parts.0 + "." + parts.1
    ensures IsSubdomain(parts.0) && IsTld(parts.1)
  {
    var k :| 0 <= k < |s| && s[k] == '.' && IsSubdomain(s[..k]) && IsTld(s[k + 1..]);
    assert s == s[..k] + "." + s[k + 1..];
    (s[..k], s[k + 1..])
  }

  /** The pointwise reading of the domain pattern: a text of the form
      `name + "." + tld` is a valid domain exactly when `name` is a valid
      subdomain and `tld` is two or more letters. */
  lemma DomainComposition(name: string, tld: string)
    ensures IsDomain(name + "." + tld) <==> IsSubdomain(name) && IsTld(tld)
  {
    var s := name + "." + tld;
    var n := |name|;
    assert s[n] == '.' && s[..n] == name && s[n + 1..] == tld;
    if IsDomain(s) {
      var k :| 0 <= k < |s| && s[k] == '.' && IsSubdomain(s[..k]) && IsTld(s[k + 1..]);
      if k < n {
        TldCharset(s[k + 1..]);
        assert false;
      } else if k > n {
        SubdomainCharset(s[..k]);
        assert false;
      }
    }
  }

  /** A valid domain contains exactly one dot, and no `%` and no `/`. */
  lemma DomainHasOneDot(s: string)
    requires IsDomain(s)
    ensures Count(s, '.') == 1
    ensures '%' !in s && '/' !in s
  {
    var (name, tld) := SplitDomain(s);
    SubdomainCharset(name);
    TldCharset(tld);
    CountAppend(name + ".", tld, '.');
    CountAppend(name, ".", '.');
    assert Count(".", '.') == 1;
  }

  /** A valid domain has at least six characters: three for the label, the dot,
      and two for the top-level part.  So it always passes the length check. */
  lemma DomainMinLength(s: string)
    requires IsDomain(s)
    ensures |s| >= 6
  {
    var (name, tld) := SplitDomain(s);
    assert |s| == |name| + 1 + |tld|;
  }

  /** Concrete cases. */
  lemma ExampleDotComIsDomain()
    ensures IsDomain("example.com")
  {
    DomainComposition("example", "com");
    assert "example" + "." + "com" == "example.com";
  }

  /** A two-character first label is refused. */
  lemma ShortLabelIsNotDomain()
    ensures !IsDomain("ab.com")
  {
    DomainComposition("ab", "com");
    assert "ab" + "." + "com" == "ab.com";
  }

  /** A valid domain has one dot position only. */
  lemma DomainDotUnique(s: string, i: nat, j: nat)
    requires IsDomain(s)
    requires i < |s| && j < |s| && s[i] == '.' && s[j] == '.'
    ensures i == j
  {
    var (name, tld) := SplitDomain(s);
    SubdomainCharset(name);
    TldCharset(tld);
  }

  /** A name with two dots is refused: the pattern allows one label only. */
  lemma TwoLabelsIsNotDomain()
    ensures !IsDomain("sub.example.com")
  {
    var t := "sub.example.com";
    if IsDomain(t) {
      DomainDotUnique(t, 3, 11);
    }
  }

  lemma SubdomainExamples()
    ensures IsSubdomain("api")
    ensures IsSubdomain("my-app1")
    ensures !IsSubdomain("a")
    ensures !IsSubdomain("-ab")
    ensures !IsSubdomain("ab-")
    ensures !IsSubdomain("a.b")
  {
    assert "api"[1..2] == "p";
    assert "my-app1"[1..6] == "y-app";
    assert AllLabelChars("y-app");
    assert "a.b"[1..2] == ".";
    assert !AllLabelChars(".") by { assert "."[0] == '.'; }
  }

  /** The outcome of `checkArgs`: `Ok`, or the error its fatal exit reports. */
  datatype Verdict =
    | Ok
    | ArgCount
    | TooShort(index: nat)
    | BadDomain
    | BadSubdomain
    | BadURL

  const MinArgLength: nat := 3

  /** `checkArgs`: fail fast in a fixed order.  `validURI` stands for
      `url.ParseRequestURI` succeeding on its argument.  Arguments are, in order,
      the domain, the subdomain and the redirect URL. */
  function CheckArgs(args: seq<string>, validURI: string -> bool): (v: Verdict)
    // the argument count is checked before anything else
    ensures v == ArgCount <==> |args| != 3
    // the three length checks come before any syntax check, in argument order
    ensures forall i: nat :: v == TooShort(i) <==>
      && |args| == 3 && i < 3 && |args[i]| < MinArgLength
      && (i >= 1 ==> |args[0]| >= MinArgLength)
      && (i >= 2 ==> |args[1]| >= MinArgLength)
    // then the domain, the subdomain and the URL, in that order
    ensures v == BadDomain <==>
      && |args| == 3 && (forall j :: 0 <= j < 3 ==> |args[j]| >= MinArgLength)
      && !IsDomain(args[0])
    ensures v == BadSubdomain <==>
      && |args| == 3 && (forall j :: 0 <= j < 3 ==> |args[j]| >= MinArgLength)
      && IsDomain(args[0]) && !IsSubdomain(args[1])
    ensures v == BadURL <==>
      && |args| == 3 && |args[2]| >= MinArgLength
      && IsDomain(args[0]) && IsSubdomain(args[1]) && !validURI(args[2])
    // acceptance: the two patterns imply the first two length checks
    ensures v == Ok <==>
      && |args| == 3
      && IsDomain(args[0]) && IsSubdomain(args[1])
      && |args[2]| >= MinArgLength && validURI(args[2])
  {
    assert forall d :: IsDomain(d) ==> |d| >= 6 by {
      forall d | IsDomain(d) ensures |d| >= 6 { DomainMinLength(d); }
    }
    if |args| != 3 then ArgCount
    else if |args[0]| < MinArgLength then TooShort(0)
    else if |args[1]| < MinArgLength then TooShort(1)
    else if |args[2]| < MinArgLength then TooShort(2)
    else if !IsDomain(args[0]) then BadDomain
    else if !IsSubdomain(args[1]) then BadSubdomain
    else if !validURI(args[2]) then BadURL
    else Ok
  }
}
